=== FILE: README.md ===
# Shortest paths over a social-network adjacency matrix: a Dafny model

The Rust program is meant to load an undirected graph as an edge list, build
an `n`-by-`n` 0/1 adjacency matrix, and report the largest distance a
lazy-deletion Dijkstra from node 0 finds (`Graph::longest_path`). As written,
the pieces are not connected. `read_graph` is never called, and `make_graph`
is called only from the commented-out `main` (src/main.rs:265). The
`adjacency_matrix` that `longest_path` reads at line 136 is left empty by
`Graph::new` (line 99) and nothing writes it. `add_edge` writes the separate
`adj_matrix`. This project models, in `src/main.rs`:

- the construction of the matrix (`read_graph` and the update loop of `make_graph`);
- the `Graph` struct's constructor and its `add_edge`;
- the reversed ordering of `Node` that makes `BinaryHeap` a min-frontier;
- `longest_path` exactly as written.

It also gives a clearly separate *repair* of `longest_path` and proves the
repair correct against shortest walks.

Modules:

- `Panics` (`panics.dfy`). A Rust panic becomes the value `Panicked(reason)`,
  so every operation is total and its failure cases sit in its contract.
- `Matrix` (`matrix.dfy`). Square matrices as `seq<seq<T>>`, the all-`v`
  matrix, and single-entry update.
- `Edges` (`edges.dfy`). `read_graph` and `make_graph`'s loop, checked against
  a declarative `Adjacency`. In it, entry `[i][j]` is 1 exactly when `(i, j)`
  or `(j, i)` is in the list.
- `Graphs` (`graph.dfy`). `Graph::new` and `add_edge`.
- `Frontier` (`frontier.dfy`). `Node`, its `partial_cmp`/`cmp`, and
  `BinaryHeap::pop` as a nondeterministic removal of a greatest entry from a
  multiset.
- `Traversal` (`traversal.dfy`). The `while let` loop of `longest_path`, run
  from any distance vector whose entries fit a `usize` and any queue whose
  entries name nodes below `n` with distances below the sentinel, and
  `longest_path` itself. The
  sentinel is `usize::MAX` of a 64-bit target.
- `Walks` and `SearchState` (`walks.dfy`, `search_state.dfy`). Walks from node
  0, their weights, shortest walk distances, and the loop state of the
  repaired traversal.
- `Repaired` (`repaired.dfy`). THE REPAIR, not the source. The "visited" test
  uses a separate vector, and the final maximum leaves unreached nodes out.
- `Findings` (`findings.dfy`). Two concrete graphs on which the code as
  written and the repair disagree.

Line 113 sets `distances[0] = 0` before the seed `(0, 0)` is popped, so the
test at line 125 skips the seed. That line is why nothing is ever expanded
(first finding below).

Queued entries never fall below their node's recorded distance. In the code
as written that fact, together with the seed `(0, 0)`, means every pop is
skipped. `Traversal.Traverse` states this: from a settled queue, the loop
returns the vector unchanged.

## Model

| member | source | states |
|---|---|---|
| Matrix.Filled | src/main.rs:153 | `vec![vec![0; n]; n]`: an `n`-by-`n` matrix with every entry equal to the fill value |
| Matrix.Set | src/main.rs:155 | a single write `[a][b] = v` keeps the shape, stores `v` at `[a][b]`, and leaves every other entry as it was |
| Edges.Adjacency | src/main.rs:152-158 | the matrix an edge list denotes is square, holds only 0 and 1, and is symmetric |
| Edges.AdjacencyStep | src/main.rs:154-157 | one in-range pair `(a, b)` added to the list changes the denoted matrix exactly by the two writes `[a][b] = 1`, `[b][a] = 1` |
| Edges.ReadGraph | src/main.rs:152-159 | returns a matrix exactly when every endpoint is below `n`, and that matrix is the one the list denotes (1 exactly at linked pairs); otherwise it panics at the first out-of-range pair, all earlier pairs being in range |
| Edges.MakeGraph | src/main.rs:16-31 | no header line gives the empty matrix; with header `n` the edge lines give the same matrix, or the same panic, as `read_graph(n, edges)` |
| Edges.AdjacencyIgnoresOrder | src/main.rs:154-157 | any rearrangement of the edge list (same multiset) yields the same matrix |
| Edges.AdjacencyIgnoresDuplicates | src/main.rs:154-157 | repeating a pair already in the list yields the same matrix |
| Edges.AdjacencyIgnoresDirection | src/main.rs:154-157 | writing a pair as `(b, a)` instead of `(a, b)` yields the same matrix |
| Graphs.New | src/main.rs:86-101 | `Graph::new(k)` has `k` nodes, `adj_matrix` is `k` rows of `k` zeros, and the matrix `longest_path` reads is empty |
| Graphs.AddEdge | src/main.rs:103-105 | it panics exactly when `(a, b)` lies outside `adj_matrix`; otherwise only `adj_matrix[a][b]` becomes 1, and the size, the other entries (including `[b][a]`) and `adjacency_matrix` are kept |
| Graphs.AddEdgeIdempotent | src/main.rs:103-105 | adding the same edge twice gives the same graph as adding it once |
| Graphs.AddEdgeCommutes | src/main.rs:103-105 | two edges that fit give the same graph in either order |
| Graphs.AddEdgeIsDirected | src/main.rs:103-105 | on a fresh graph, adding `(a, b)` with `a != b` leaves `[b][a]` at 0, so `adj_matrix` is not symmetric |
| Frontier.PartialCmp | src/main.rs:59-63 | `partial_cmp` always returns `Some` |
| Frontier.Cmp | src/main.rs:65-69 | a node is Greater exactly when its distance is smaller, Less exactly when it is larger, and Equal exactly when the distances agree, whatever the indices |
| Frontier.CmpReversesDistanceOrder | src/main.rs:49-69 | `cmp` is the reverse of comparing distances, it is antisymmetric, and `==` (the `PartialEq::eq` impl, modelled by `Frontier.NodeEq`, which compares distances only) agrees with `cmp` returning Equal |
| Frontier.Pop | src/main.rs:122 | `pop` gives `None` exactly on an empty heap; otherwise it removes one entry of the heap, and that entry has the smallest distance in it |
| Traversal.Traverse | src/main.rs:122-144 | the loop terminates on any start state whose queued entries name nodes below `n` with distances below the sentinel (the source always starts in such a state); it never raises an entry; it can only panic by reading outside the matrix (at a position below `n` by `n` that really lies outside it, so an `n`-by-`n` matrix never panics on a read) or by an overflowing sum (at an entry inside the matrix of at least 2, since every queued distance is below the sentinel, so a 0/1 matrix never overflows); and when every queued entry is settled it returns the vector unchanged |
| Traversal.ShortestDistancesAsWritten | src/main.rs:111-144 | panics exactly when there are no nodes; otherwise returns the origin at 0 and every other node at `usize::MAX`, whatever the matrix |
| Traversal.MaxEntry | src/main.rs:148 | `max()` is `None` exactly for an empty vector; otherwise it is one of the entries and no entry exceeds it |
| Traversal.LongestPath | src/main.rs:109-149 | panics with no nodes, returns 0 for one node, and `usize::MAX` for more, whatever edges the graph has |
| Walks.DistanceIsLowerBound | src/main.rs:135-143 | a vector that is relaxed along every positive entry and has 0 at the origin is at or below the weight of every walk from the origin |
| Repaired.ExamineNeighbour | src/main.rs:136-142 | one pass of the inner loop keeps the loop state and its witness walks, and it panics only on a matrix that is not square 0/1 |
| Repaired.Relax | src/main.rs:138-141 | a shorter sum becomes the neighbour's distance and is queued, keeping the loop state and a witness walk of exactly that weight |
| Repaired.ScanRow | src/main.rs:135-143 | after the whole row the outer loop state holds again, with every finite distance witnessed by a walk; panics only on a matrix that is not square 0/1 |
| Repaired.ShortestDistances | src/main.rs:111-144 | repaired loop: panics with no nodes; otherwise the origin is at 0, every finite entry is the weight of a shortest walk, no walk is lighter than any entry, the vector is relaxed, and a square 0/1 matrix never panics |
| Repaired.Eccentricity | src/main.rs:148 | the repaired reduction is below the sentinel, at or above every finite entry, and is 0 or one of the entries |
| Repaired.LongestPath | src/main.rs:109-149 | repaired `longest_path`: the result is the shortest-walk distance of some node, and no reachable node's shortest-walk distance exceeds it; panics only with no nodes or a matrix that is not square 0/1 |
| Findings.OneEdgeMatrix | src/main.rs:152-158 | `read_graph(2, [(0, 1)])` is `[[0, 1], [1, 0]]` |
| Findings.IsolatedNodeMatrix | src/main.rs:152-158 | `read_graph(3, [(0, 1)])` is `[[0, 1, 0], [1, 0, 0], [0, 0, 0]]` |
| Findings.NodeOneAtDistanceOne | src/main.rs:135-143 | with an edge 0 - 1, the shortest walk to node 1 weighs 1 |
| Findings.IsolatedNodeDistances | src/main.rs:111-144 | on the edge 0 - 1 plus an isolated node 2, correct shortest distances are exactly `[0, 1, usize::MAX]` |
| Findings.OneEdgeLongestPath | src/main.rs:109-149 | on the single edge 0 - 1, `longest_path` as written returns `usize::MAX`, the repair returns 1 |
| Findings.IsolatedNodeLongestPath | src/main.rs:148 | on the edge 0 - 1 plus an isolated node, the maximum over the correct vector is `usize::MAX`, the maximum over reached nodes is 1 |
| Findings.SentinelSwampsMaximum | src/main.rs:148 | on `[0, 1, usize::MAX]`, `max()` is the sentinel and the repaired reduction is 1 |

## Left out

- File reading (`fs::read_to_string` at src/main.rs:9, 163, 182, 206, 229, 238) is I/O. Splitting lines and `parse::<usize>().unwrap()` are std string handling. `Edges.MakeGraph` takes the header and the edge pairs already parsed, so a malformed number's panic is not modelled.
- `parse_edges`, `parse_circles`, `parse_features`, `parse_feature_names` and `parse_ego_features` (src/main.rs:162-240) only parse files. The `circles`, `features`, `ego_features` and `feature_names` fields of `Graph` are never read by the traversal, so they are not part of the `Graph` datatype.
- `build_graph` (src/main.rs:242-263) is not modelled. It calls the by-value `add_edge` twice on a moved `graph`, which the Rust compiler rejects. It also builds 4039 nodes and ignores the `num_nodes` it computes at line 249.
- `main` (src/main.rs:264-283) is left out. The inner `main` is never called and the other block is commented out.
- `extern crate rand` and the unused imports (src/main.rs:1-5) are left out.
- `node.distance + weight` (src/main.rs:137) is modelled as the debug-build overflow panic (`AddOverflow`). A release build would wrap around instead, and that is not modelled.
- `usize` is taken to be 64 bits wide.
- In Rust, `add_edge` consumes `self` and returns nothing, so the caller never sees the update. The model returns the updated graph so that the effect of the write can be stated.
- `BinaryHeap`'s internal layout and its tie-breaking between equal distances are not modelled. `Frontier.Pop` may return any entry of least distance.
- The `None` branch of `make_graph` (line 18) is modelled as written. A trimmed `split` always yields at least one line, so a real file never reaches it.

## Findings

| source | as written | input that shows it | evidently intended | confidence | as-written member | corrected member |
|---|---|---|---|---|---|---|
| src/main.rs:113,125,139 | the "visited" test is `distances[i] != usize::MAX`, but line 113 already set `distances[0] = 0`, so the seed `(0, 0)` is skipped and nothing is ever expanded; `longest_path` returns `usize::MAX` for every graph with more than one node | `read_graph(2, vec![(0, 1)])`, node count 2: returns `usize::MAX` | a separate visited set, so that the origin is expanded and every reachable node gets its shortest distance; the result on that input is 1 | not executed | Findings.OneEdgeLongestPath | Repaired.LongestPath |
| src/main.rs:148 | `max()` runs over the whole vector, so any node the origin cannot reach contributes the sentinel `usize::MAX` | `read_graph(3, vec![(0, 1)])`, even with the visited test repaired: the vector is `[0, 1, usize::MAX]` and `max()` is `usize::MAX` | the maximum over reached nodes only (the eccentricity of the origin), 1 on that input | not executed | Findings.IsolatedNodeLongestPath | Repaired.Eccentricity |

=== FILE: edges.dfy ===
/** Turning an edge list into a 0/1 adjacency matrix: `read_graph` and the
    matrix-update loop of `make_graph`. */
module Edges {
  import opened Matrix
  import opened Panics

  /** One `(a, b)` pair of the edge list, both node indices. */
  type Edge = (nat, nat)

  /** Nodes `i` and `j` are joined by some pair of `edges`, in either direction. */
  predicate Linked(edges: seq<Edge>, i: int, j: int)
  {
    exists k | 0 <= k < |edges| :: edges[k] == (i, j) || edges[k] == (j, i)
  }

  /** Both endpoints of `e` index an `n`-by-`n` matrix. */
  predicate InRange(n: nat, e: Edge)
  {
    e.0 < n && e.1 < n
  }

  predicate AllInRange(n: nat, edges: seq<Edge>)
  {
    forall k | 0 <= k < |edges| :: InRange(n, edges[k])
  }

  /** The reference meaning of an edge list: entry `[i][j]` is 1 exactly when
      `i` and `j` are linked, 0 otherwise. */
  function Adjacency(n: nat, edges: seq<Edge>): (m: seq<seq<nat>>)
    ensures IsSquare(m, n) && ZeroOne(m, n) && Symmetric(m, n)
  {
    seq(n, i => seq(n, j => if Linked(edges, i, j) then 1 else 0))
  }

  /** `read_graph`: start from the all-zero matrix and, for every pair `(a, b)`
      in order, set `[a][b]` and `[b][a]` to 1.  The first pair with an
      endpoint `>= n` makes the indexing panic. */
  method ReadGraph(n: nat, edges: seq<Edge>) returns (r: Result<seq<seq<nat>>>)
    ensures r.Ok? <==> AllInRange(n, edges)
    ensures r.Ok? ==> r.value == Adjacency(n, edges)
    ensures r.Panicked? ==>
              && r.reason.EdgeOutOfRange?
              && r.reason.position < |edges|
              && !InRange(n, edges[r.reason.position])
              && AllInRange(n, edges[..r.reason.position])
  {
    var m := Filled<nat>(n, 0);
    AdjacencyOfNoEdges(n);
    var k := 0;
    assert edges[..k] == [];
    while k < |edges|
      invariant 0 <= k <= |edges|
      invariant AllInRange(n, edges[..k])
      invariant m == Adjacency(n, edges[..k])
    {
      var (a, b) := edges[k];
      if a >= n || b >= n {
        return Panicked(EdgeOutOfRange(k));
      }
      AdjacencyStep(n, edges[..k], a, b);
      assert edges[..k + 1] == edges[..k] + [(a, b)];
      m := Set(Set(m, a, b, 1), b, a, 1);
      k := k + 1;
    }
    assert edges[..k] == edges;
    return Ok(m);
  }

  /** The matrix-building part of `make_graph`, after the file has been split
      into a header line and edge lines: no header line gives the empty
      matrix; otherwise the header is the node count and the remaining lines
      are applied exactly as `read_graph` applies its edge list.  `header`
      stands for the first line of the file, if there is one. */
  method MakeGraph(header: Option<nat>, edges: seq<Edge>) returns (r: Result<seq<seq<nat>>>)
    ensures header.None? ==> r == Ok([])
    ensures header.Some? ==> (r.Ok? <==> AllInRange(header.value, edges))
    ensures header.Some? && r.Ok? ==> r.value == Adjacency(header.value, edges)
    ensures r.Panicked? ==>
              && header.Some?
              && r.reason.EdgeOutOfRange?
              && r.reason.position < |edges|
              && !InRange(header.value, edges[r.reason.position])
              && AllInRange(header.value, edges[..r.reason.position])
  {
    match header
    case None =>
      r := Ok([]);
    case Some(n) =>
      r := ReadGraph(n, edges);
  }

  lemma AdjacencyOfNoEdges(n: nat)
    ensures Adjacency(n, []) == Filled<nat>(n, 0)
  {
    SquareExtensionality(Adjacency(n, []), Filled<nat>(n, 0), n);
  }

  /** Appending one in-range pair `(a, b)` sets exactly the entries `[a][b]`
      and `[b][a]`: one iteration of the `read_graph` loop. */
  lemma AdjacencyStep(n: nat, edges: seq<Edge>, a: nat, b: nat)
    requires a < n && b < n
    ensures Adjacency(n, edges + [(a, b)]) == Set(Set(Adjacency(n, edges), a, b, 1), b, a, 1)
  {
    var lhs := Adjacency(n, edges + [(a, b)]);
    var rhs := Set(Set(Adjacency(n, edges), a, b, 1), b, a, 1);
    forall i, j | 0 <= i < n && 0 <= j < n
      ensures lhs[i][j] == rhs[i][j]
    {
      LinkedAppend(edges, (a, b), i, j);
    }
    SquareExtensionality(lhs, rhs, n);
  }

  lemma LinkedAppend(edges: seq<Edge>, e: Edge, i: int, j: int)
    ensures Linked(edges + [e], i, j) <==> Linked(edges, i, j) || e == (i, j) || e == (j, i)
  {
    var all := edges + [e];
    if Linked(edges, i, j) {
      var k :| 0 <= k < |edges| && (edges[k] == (i, j) || edges[k] == (j, i));
      assert all[k] == edges[k];
    }
    if e == (i, j) || e == (j, i) {
      assert all[|edges|] == e;
    }
    if Linked(all, i, j) {
      var k :| 0 <= k < |all| && (all[k] == (i, j) || all[k] == (j, i));
      if k < |edges| {
        assert all[k] == edges[k];
      }
    }
  }

  /** The matrix depends only on which pairs of nodes are linked. */
  lemma AdjacencyDependsOnlyOnLinks(n: nat, e1: seq<Edge>, e2: seq<Edge>)
    requires forall i: int, j: int :: Linked(e1, i, j) <==> Linked(e2, i, j)
    ensures Adjacency(n, e1) == Adjacency(n, e2)
  {
    SquareExtensionality(Adjacency(n, e1), Adjacency(n, e2), n);
  }

  lemma LinkedViaMultiset(edges: seq<Edge>, i: int, j: int)
    ensures Linked(edges, i, j) <==> (i, j) in multiset(edges) || (j, i) in multiset(edges)
  {
  }

  /** Edge order does not matter: any rearrangement of the list gives the
      same matrix. */
  lemma AdjacencyIgnoresOrder(n: nat, e1: seq<Edge>, e2: seq<Edge>)
    requires multiset(e1) == multiset(e2)
    ensures Adjacency(n, e1) == Adjacency(n, e2)
  {
    forall i: int, j: int
      ensures Linked(e1, i, j) <==> Linked(e2, i, j)
    {
      LinkedViaMultiset(e1, i, j);
      LinkedViaMultiset(e2, i, j);
    }
    AdjacencyDependsOnlyOnLinks(n, e1, e2);
  }

  /** Repeating a pair that is already in the list changes nothing. */
  lemma AdjacencyIgnoresDuplicates(n: nat, edges: seq<Edge>, k: nat)
    requires k < |edges|
    ensures Adjacency(n, edges + [edges[k]]) == Adjacency(n, edges)
  {
    forall i: int, j: int
      ensures Linked(edges + [edges[k]], i, j) <==> Linked(edges, i, j)
    {
      LinkedAppend(edges, edges[k], i, j);
    }
    AdjacencyDependsOnlyOnLinks(n, edges + [edges[k]], edges);
  }

  /** Writing a pair as `(b, a)` instead of `(a, b)` changes nothing. */
  lemma AdjacencyIgnoresDirection(n: nat, edges: seq<Edge>, k: nat)
    requires k < |edges|
    ensures Adjacency(n, edges[k := (edges[k].1, edges[k].0)]) == Adjacency(n, edges)
  {
    var flipped := edges[k := (edges[k].1, edges[k].0)];
    forall i: int, j: int
      ensures Linked(flipped, i, j) <==> Linked(edges, i, j)
    {
      if Linked(edges, i, j) {
        var h :| 0 <= h < |edges| && (edges[h] == (i, j) || edges[h] == (j, i));
        assert flipped[h] == (i, j) || flipped[h] == (j, i);
      }
      if Linked(flipped, i, j) {
        var h :| 0 <= h < |flipped| && (flipped[h] == (i, j) || flipped[h] == (j, i));
        assert edges[h] == (i, j) || edges[h] == (j, i);
      }
    }
    AdjacencyDependsOnlyOnLinks(n, flipped, edges);
  }
}

=== FILE: findings.dfy ===
/** Two concrete graphs on which `longest_path` as written and the repaired
    traversal disagree. */
module Findings {
  import opened Panics
  import opened Matrix
  import opened Edges
  import Graphs
  import Traversal
  import Walks
  import Repaired

  /** `read_graph(2, vec![(0, 1)])`: the single edge 0 - 1. */
  lemma OneEdgeMatrix()
    ensures Adjacency(2, [(0, 1)]) == [[0, 1], [1, 0]]
  {
    var edges: seq<Edge> := [(0, 1)];
    assert edges[0] == (0, 1);
    assert Linked(edges, 0, 1) && Linked(edges, 1, 0);
    SquareExtensionality(Adjacency(2, [(0, 1)]), [[0, 1], [1, 0]], 2);
  }

  /** `read_graph(3, vec![(0, 1)])`: the edge 0 - 1 and the isolated node 2. */
  lemma IsolatedNodeMatrix()
    ensures Adjacency(3, [(0, 1)]) == [[0, 1, 0], [1, 0, 0], [0, 0, 0]]
  {
    var edges: seq<Edge> := [(0, 1)];
    assert edges[0] == (0, 1);
    assert Linked(edges, 0, 1) && Linked(edges, 1, 0);
    SquareExtensionality(Adjacency(3, [(0, 1)]), [[0, 1, 0], [1, 0, 0], [0, 0, 0]], 3);
  }

  /** In both graphs, node 1 is exactly one step from the origin. */
  lemma NodeOneAtDistanceOne(m: seq<seq<nat>>, n: nat)
    requires n >= 2 && |m| >= 2 && |m[0]| >= 2 && m[0][1] == 1
    ensures Walks.Shortest(m, n, 1, 1)
  {
    assert Walks.WalkTo(m, n, [0, 1], 1);
    assert Walks.Weight(m, [0, 1]) == 1 by {
      assert [0, 1][..1] == [0];
    }
    forall p | Walks.WalkTo(m, n, p, 1)
      ensures 1 <= Walks.Weight(m, p)
    {
      Walks.LeavingOriginCosts(m, n, p, 1);
    }
  }

  /** Any vector meeting the repaired traversal's contract on the graph
      0 - 1 plus isolated node 2 is `[0, 1, usize::MAX]`. */
  lemma IsolatedNodeDistances(m: seq<seq<nat>>, d: seq<nat>)
    requires m == [[0, 1, 0], [1, 0, 0], [0, 0, 0]]
    requires |d| == 3 && Traversal.Bounded(d) && d[0] == 0
    requires forall v | 0 <= v < 3 && d[v] < Traversal.USIZE_MAX :: Walks.Shortest(m, 3, v, d[v])
    requires forall v, p | 0 <= v < 3 && Walks.WalkTo(m, 3, p, v) :: d[v] <= Walks.Weight(m, p)
    ensures d == [0, 1, Traversal.USIZE_MAX]
  {
    NodeOneAtDistanceOne(m, 3);
    assert d[1] == 1 by {
      assert Walks.WalkTo(m, 3, [0, 1], 1);
      assert d[1] <= Walks.Weight(m, [0, 1]);
    }
    assert d[2] == Traversal.USIZE_MAX by {
      forall p
        ensures !Walks.WalkTo(m, 3, p, 2)
      {
        Walks.NoWalkWithoutIncomingEdge(m, 3, p, 2);
      }
    }
  }

  /** The single edge 0 - 1: `longest_path` as written reports `usize::MAX`,
      although node 1 is one step from the origin; the repair reports 1. */
  method OneEdgeLongestPath() returns (asWritten: nat, repaired: nat)
    ensures asWritten == Traversal.USIZE_MAX
    ensures repaired == 1
  {
    var built := ReadGraph(2, [(0, 1)]);
    OneEdgeMatrix();
    var m := built.value;
    var w := Traversal.LongestPath(Graphs.Graph(m, 2, []));
    asWritten := w.value;
    var r := Repaired.LongestPath(m, 2);
    repaired := r.value;
    NodeOneAtDistanceOne(m, 2);
    ghost var v :| 0 <= v < 2 && Walks.Shortest(m, 2, v, repaired);
    if v == 0 {
      assert Walks.WalkTo(m, 2, [0], 0);
    } else {
      assert Walks.WalkTo(m, 2, [0, 1], 1);
      assert Walks.Weight(m, [0, 1]) == 1 by {
        assert [0, 1][..1] == [0];
      }
    }
  }

  /** Nodes 0 - 1 and an isolated node 2.  Even with the visited test
      repaired, the maximum over the whole vector (line 148) picks up the
      sentinel of node 2; the maximum over reached nodes is 1. */
  method IsolatedNodeLongestPath() returns (withSentinel: nat, reachedOnly: nat)
    ensures withSentinel == Traversal.USIZE_MAX
    ensures reachedOnly == 1
  {
    var built := ReadGraph(3, [(0, 1)]);
    IsolatedNodeMatrix();
    var m := built.value;
    var r := Repaired.ShortestDistances(m, 3);
    var d := r.value;
    IsolatedNodeDistances(m, d);
    withSentinel := Traversal.MaxEntry(d).value;
    reachedOnly := Repaired.Eccentricity(d);
    SentinelSwampsMaximum(d);
  }

  /** On `[0, 1, usize::MAX]` the line-148 maximum is the sentinel, while the
      maximum over reached nodes is 1. */
  lemma SentinelSwampsMaximum(d: seq<nat>)
    requires d == [0, 1, Traversal.USIZE_MAX]
    ensures Traversal.MaxEntry(d) == Some(Traversal.USIZE_MAX)
    ensures Repaired.Eccentricity(d) == 1
  {
  }
}

=== FILE: frontier.dfy ===
/** The traversal's frontier: `Node` entries, their `Ord` implementation, and
    `BinaryHeap::pop`, which removes a greatest entry under that order. */
module Frontier {
  import opened Panics

  /** A frontier entry: a tentative `distance` for node `index`. */
  datatype Node = Node(distance: nat, index: nat)

  /** Rust's `std::cmp::Ordering`. */
  datatype Ordering = Less | Equal | Greater {
    /** The ordering seen from the other side of the comparison. */
    function Reverse(): Ordering
    {
      match this
      case Less => Greater
      case Equal => Equal
      case Greater => Less
    }
  }

  /** `usize`'s own comparison. */
  function CompareNat(x: nat, y: nat): Ordering
  {
    if x < y then Less else if x == y then Equal else Greater
  }

  /** `PartialEq for Node`: two entries are equal when their distances are,
      whatever their indices. */
  predicate NodeEq(a: Node, b: Node)
  {
    a.distance == b.distance
  }

  /** `PartialOrd for Node`: compares the OTHER entry's distance with this
      one's, so a smaller distance is a greater `Node`. */
  function PartialCmp(self: Node, other: Node): (r: Option<Ordering>)
    ensures r.Some?
  {
    Some(CompareNat(other.distance, self.distance))
  }

  /** `Ord for Node`: `partial_cmp(..).unwrap()`, which never panics. */
  function Cmp(self: Node, other: Node): (r: Ordering)
    ensures r == Greater <==> self.distance < other.distance
    ensures r == Less <==> other.distance < self.distance
    ensures r == Equal <==> NodeEq(self, other)
  {
    PartialCmp(self, other).value
  }

  /** The order is the reverse of the order on distances, it is
      antisymmetric, and it agrees with `NodeEq` as `Ord` must agree with `Eq`. */
  lemma CmpReversesDistanceOrder(a: Node, b: Node)
    ensures Cmp(a, b) == CompareNat(a.distance, b.distance).Reverse()
    ensures Cmp(b, a) == Cmp(a, b).Reverse()
    ensures NodeEq(a, b) <==> Cmp(a, b) == Equal
  {
  }

  /** `top` is an entry of `q` that no entry of `q` exceeds: one that
      `BinaryHeap::pop` may return (ties are broken arbitrarily). */
  predicate IsHeapTop(top: Node, q: multiset<Node>)
  {
    top in q && forall o | o in q :: Cmp(top, o) != Less
  }

  /** Every non-empty heap has a greatest entry. */
  lemma {:induction false} HeapTopExists(q: multiset<Node>)
    requires q != multiset{}
    ensures exists top :: IsHeapTop(top, q)
    decreases |q|
  {
    var x :| x in q;
    var rest := q - multiset{x};
    if rest == multiset{} {
      assert q == multiset{x} by {
        assert q == rest + multiset{x};
      }
      assert IsHeapTop(x, q);
    } else {
      HeapTopExists(rest);
      var y :| IsHeapTop(y, rest);
      if y.distance <= x.distance {
        forall o | o in q
          ensures Cmp(y, o) != Less
        {
          if o != x {
            assert o in rest;
          }
        }
        assert IsHeapTop(y, q);
      } else {
        forall o | o in q
          ensures Cmp(x, o) != Less
        {
          if o != x {
            assert o in rest;
            assert Cmp(y, o) != Less;
          }
        }
        assert IsHeapTop(x, q);
      }
    }
  }

  /** `BinaryHeap::pop`: `None` on an empty heap; otherwise removes one
      greatest entry, which, since the order is reversed, has the smallest
      distance. */
  method Pop(q: multiset<Node>) returns (top: Option<Node>, rest: multiset<Node>)
    ensures top.None? <==> q == multiset{}
    ensures top.None? ==> rest == q
    ensures top.Some? ==> top.value in q && rest == q - multiset{top.value} && |rest| < |q|
    ensures top.Some? ==> forall o | o in q :: top.value.distance <= o.distance
  {
    if q == multiset{} {
      return None, q;
    }
    HeapTopExists(q);
    var greatest :| IsHeapTop(greatest, q);
    top, rest := Some(greatest), q - multiset{greatest};
  }
}

=== FILE: graph.dfy ===
/** The `Graph` struct, its constructor and `add_edge`.  The fields the
    traversal never reads (circles, features, ego features, feature names)
    are not modelled. */
module Graphs {
  import opened Matrix
  import opened Panics

  /** `adjacencyMatrix` is the `Vec<Vec<usize>>` that `longest_path` reads;
      `adjMatrix` is the separate `Vec<Vec<i32>>` that `add_edge` writes. */
  datatype Graph = Graph(adjacencyMatrix: seq<seq<nat>>, numNodes: nat, adjMatrix: seq<seq<int>>)

  /** `Graph::new(k)`: `adj_matrix` is `k` rows of `k` zeros, while the
      matrix the traversal reads starts (and, in this program, stays) empty. */
  function New(k: nat): (g: Graph)
    ensures g.numNodes == k
    ensures g.adjacencyMatrix == []
    ensures IsSquare(g.adjMatrix, k) && forall i, j | 0 <= i < k && 0 <= j < k :: g.adjMatrix[i][j] == 0
  {
    Graph([], k, Filled(k, 0))
  }

  /** `add_edge(self, a, b)`: the moved-in copy of the graph after
      `self.adj_matrix[a][b] = 1`, or the panic of that indexing when `a`
      or `b` lies outside the stored matrix.  Only that one entry changes:
      not `[b][a]`, not the size, and not the matrix `longest_path` reads.
      The Rust method returns nothing, so the caller never sees this value. */
  function AddEdge(g: Graph, a: nat, b: nat): (r: Result<Graph>)
    ensures r.Ok? <==> a < |g.adjMatrix| && b < |g.adjMatrix[a]|
    ensures r.Panicked? ==> r.reason == MatrixIndexOutOfBounds(a, b)
    ensures r.Ok? ==> r.value.numNodes == g.numNodes && r.value.adjacencyMatrix == g.adjacencyMatrix
    ensures r.Ok? ==> |r.value.adjMatrix| == |g.adjMatrix|
    ensures r.Ok? ==> forall i | 0 <= i < |g.adjMatrix| :: |r.value.adjMatrix[i]| == |g.adjMatrix[i]|
    ensures r.Ok? ==> r.value.adjMatrix[a][b] == 1
    ensures r.Ok? ==>
              forall i, j | 0 <= i < |g.adjMatrix| && 0 <= j < |g.adjMatrix[i]| && (i != a || j != b) ::
                r.value.adjMatrix[i][j] == g.adjMatrix[i][j]
  {
    if a < |g.adjMatrix| && b < |g.adjMatrix[a]| then Ok(g.(adjMatrix := Set(g.adjMatrix, a, b, 1)))
    else Panicked(MatrixIndexOutOfBounds(a, b))
  }

  /** Adding the same edge twice leaves the same state as adding it once. */
  lemma AddEdgeIdempotent(g: Graph, a: nat, b: nat)
    ensures AddEdge(g, a, b).Ok? ==> AddEdge(AddEdge(g, a, b).value, a, b) == AddEdge(g, a, b)
  {
    var once := AddEdge(g, a, b);
    if once.Ok? {
      var twice := AddEdge(once.value, a, b);
      assert twice.value.adjMatrix[a] == once.value.adjMatrix[a];
      assert twice.value.adjMatrix == once.value.adjMatrix;
    }
  }

  /** Two edges that both fit give the same state in either order. */
  lemma AddEdgeCommutes(g: Graph, a: nat, b: nat, c: nat, d: nat)
    requires AddEdge(g, a, b).Ok? && AddEdge(g, c, d).Ok?
    ensures AddEdge(AddEdge(g, a, b).value, c, d) == AddEdge(AddEdge(g, c, d).value, a, b)
  {
    var ab := AddEdge(AddEdge(g, a, b).value, c, d).value;
    var cd := AddEdge(AddEdge(g, c, d).value, a, b).value;
    forall i | 0 <= i < |g.adjMatrix|
      ensures ab.adjMatrix[i] == cd.adjMatrix[i]
    {
      assert forall j | 0 <= j < |g.adjMatrix[i]| :: ab.adjMatrix[i][j] == cd.adjMatrix[i][j];
    }
    assert ab.adjMatrix == cd.adjMatrix;
  }

  /** `add_edge` is one-directional: on a fresh graph, adding `(a, b)` with
      `a != b` leaves `[b][a]` at 0, so the stored relation is not symmetric. */
  lemma AddEdgeIsDirected(k: nat, a: nat, b: nat)
    requires a < k && b < k && a != b
    ensures AddEdge(New(k), a, b).Ok?
    ensures AddEdge(New(k), a, b).value.adjMatrix[b][a] == 0
    ensures !Symmetric(AddEdge(New(k), a, b).value.adjMatrix, k)
  {
  }
}

=== FILE: matrix.dfy ===
/** Square matrices stored as a sequence of rows, the shape of Rust's
    `Vec<Vec<_>>` adjacency matrices. */
module Matrix {

  /** `m` has `n` rows of `n` entries each. */
  predicate IsSquare<T>(m: seq<seq<T>>, n: nat)
  {
    |m| == n && forall i | 0 <= i < n :: |m[i]| == n
  }

  /** Every entry of the square matrix `m` is 0 or 1. */
  predicate ZeroOne(m: seq<seq<int>>, n: nat)
    requires IsSquare(m, n)
  {
    forall i, j | 0 <= i < n && 0 <= j < n :: 0 <= m[i][j] <= 1
  }

  /** `m[i][j] == m[j][i]` throughout: the matrix of an undirected graph. */
  predicate Symmetric(m: seq<seq<int>>, n: nat)
    requires IsSquare(m, n)
  {
    forall i, j | 0 <= i < n && 0 <= j < n :: m[i][j] == m[j][i]
  }

  /** The `n`-by-`n` matrix holding `v` everywhere, Rust's `vec![vec![v; n]; n]`. */
  function Filled<T>(n: nat, v: T): (m: seq<seq<T>>)
    ensures IsSquare(m, n)
    ensures forall i, j | 0 <= i < n && 0 <= j < n :: m[i][j] == v
  {
    seq(n, _ => seq(n, _ => v))
  }

  /** The matrix after the assignment `m[a][b] = v`. */
  function Set<T>(m: seq<seq<T>>, a: nat, b: nat, v: T): (m': seq<seq<T>>)
    requires a < |m| && b < |m[a]|
    ensures |m'| == |m|
    ensures forall i | 0 <= i < |m| :: |m'[i]| == |m[i]|
    ensures m'[a][b] == v
    ensures forall i, j | 0 <= i < |m| && 0 <= j < |m[i]| && (i != a || j != b) :: m'[i][j] == m[i][j]
  {
    m[a := m[a][b := v]]
  }

  /** Two `n`-by-`n` matrices that agree entry by entry are equal. */
  lemma SquareExtensionality<T>(m1: seq<seq<T>>, m2: seq<seq<T>>, n: nat)
    requires IsSquare(m1, n) && IsSquare(m2, n)
    requires forall i, j | 0 <= i < n && 0 <= j < n :: m1[i][j] == m2[i][j]
    ensures m1 == m2
  {
    forall i | 0 <= i < n
      ensures m1[i] == m2[i]
    {
      assert forall j | 0 <= j < n :: m1[i][j] == m2[i][j];
    }
  }
}

=== FILE: panics.dfy ===
/** The ways the modelled Rust code can abort.  A Rust panic ends the
    program; here it becomes a `Panicked` value so that every operation is
    total and its failure cases can be stated in its contract. */
module Panics {

  /** Why a run panicked. */
  datatype Panic =
    /** `matrix[a][b] = 1` with `a` or `b` not below the matrix size; `position`
        is the index of the offending pair in the edge list. */
    | EdgeOutOfRange(position: nat)
    /** An index `[row][col]` outside the stored matrix: a read of
        `adjacency_matrix` or a write to `adj_matrix`. */
    | MatrixIndexOutOfBounds(row: nat, col: nat)
    /** `node.distance + weight` exceeded `usize::MAX` (a debug-build panic). */
    | AddOverflow(node: nat, neighbour: nat)
    /** `distances[0] = 0` on the empty distance vector of a graph with no nodes. */
    | NoOrigin

  /** Rust's `Option`. */
  datatype Option<+T> = None | Some(value: T)

  /** Either the value the Rust function returns, or the panic that stopped it. */
  datatype Result<+T> = Ok(value: T) | Panicked(reason: Panic)
}

=== FILE: repaired.dfy ===
/** A REPAIR of `Graph::longest_path`, not the code as written: the
    "visited" test uses a separate `visited` vector instead of comparing the
    distance with the sentinel, and the final maximum leaves unreached nodes
    out.  With those two changes the loop is the lazy-deletion Dijkstra the
    comments describe, and it is proved to return shortest walk weights. */
module Repaired {
  import opened Panics
  import opened Matrix
  import opened Frontier
  import opened Traversal
  import opened Walks
  import opened SearchState

  /** One pass of the `for i in 0..self.num_nodes` loop of lines 135-143:
      read entry `(u, i)`, panicking if it lies outside the matrix or if
      the sum overflows, and relax `i` when the entry is positive and
      shortens its distance. */
  method ExamineNeighbour(adjacency: seq<seq<nat>>, n: nat, distances0: seq<nat>, visited: seq<bool>, queue0: multiset<Node>,
                          ghost paths0: seq<seq<nat>>, u: nat, du: nat, i: nat)
    returns (distances: seq<nat>, queue: multiset<Node>, ghost paths: seq<seq<nat>>, failure: Option<Panic>)
    requires i < n
    requires InnerInv(adjacency, n, distances0, visited, queue0, paths0, u, du, i)
    requires Witnessed(adjacency, n, distances0, paths0)
    ensures failure.None? ==> InnerInv(adjacency, n, distances, visited, queue, paths, u, du, i + 1)
    ensures failure.None? ==> Witnessed(adjacency, n, distances, paths)
    ensures failure.Some? ==> !(IsSquare(adjacency, n) && ZeroOne(adjacency, n))
  {
    distances, queue, paths := distances0, queue0, paths0;
    if u >= |adjacency| || i >= |adjacency[u]| {
      return distances, queue, paths, Some(MatrixIndexOutOfBounds(u, i));
    }
    var weight := adjacency[u][i];
    assert weight == Entry(adjacency, u, i);
    if weight != 0 && du + weight > USIZE_MAX {
      return distances, queue, paths, Some(AddOverflow(u, i));
    }
    if weight != 0 && du + weight < distances[i] {
      distances, queue, paths := Relax(adjacency, n, distances, visited, queue, paths, u, du, i, du + weight);
    } else {
      KeepNeighbour(adjacency, n, distances, visited, queue, paths, u, du, i);
    }
    return distances, queue, paths, None;
  }

  /** Lines 139-141: the sum is shorter, so it becomes the distance of `i`
      and `Node(i, sum)` is pushed; the walk to `u` extended by the edge to
      `i` witnesses the new distance. */
  method Relax(adjacency: seq<seq<nat>>, n: nat, distances0: seq<nat>, visited: seq<bool>, queue0: multiset<Node>,
               ghost paths0: seq<seq<nat>>, u: nat, du: nat, i: nat, newDistance: nat)
    returns (distances: seq<nat>, queue: multiset<Node>, ghost paths: seq<seq<nat>>)
    requires i < n
    requires InnerInv(adjacency, n, distances0, visited, queue0, paths0, u, du, i)
    requires Witnessed(adjacency, n, distances0, paths0)
    requires Entry(adjacency, u, i) > 0 && newDistance == du + Entry(adjacency, u, i)
    requires newDistance < distances0[i]
    ensures InnerInv(adjacency, n, distances, visited, queue, paths, u, du, i + 1)
    ensures Witnessed(adjacency, n, distances, paths)
    ensures distances[i] == newDistance && Node(newDistance, i) in queue
  {
    RelaxNeighbour(adjacency, n, distances0, visited, queue0, paths0, u, du, i, newDistance);
    RelaxKeepsWitnessed(adjacency, n, distances0, paths0, u, i, newDistance);
    distances := distances0[i := newDistance];
    queue := queue0 + multiset{Node(newDistance, i)};
    paths := paths0[i := paths0[u] + [i]];
  }

  /** Lines 135-143 for the node `u` just visited at distance `du`: relax
      every positive entry of its row.  Afterwards the outer invariant holds
      again, unless a read outside the matrix or an overflowing sum panicked,
      which cannot happen on a square 0/1 matrix. */
  method ScanRow(adjacency: seq<seq<nat>>, n: nat, distances0: seq<nat>, visited: seq<bool>, queue0: multiset<Node>,
                 ghost paths0: seq<seq<nat>>, u: nat, du: nat)
    returns (distances: seq<nat>, queue: multiset<Node>, ghost paths: seq<seq<nat>>, failure: Option<Panic>)
    requires InnerInv(adjacency, n, distances0, visited, queue0, paths0, u, du, 0)
    requires Witnessed(adjacency, n, distances0, paths0)
    ensures failure.None? ==> OuterInv(adjacency, n, distances, visited, queue, paths)
    ensures failure.None? ==> Witnessed(adjacency, n, distances, paths)
    ensures failure.Some? ==> !(IsSquare(adjacency, n) && ZeroOne(adjacency, n))
  {
    distances, queue, paths := distances0, queue0, paths0;
    var i := 0;
    while i < n
      invariant InnerInv(adjacency, n, distances, visited, queue, paths, u, du, i)
      invariant Witnessed(adjacency, n, distances, paths)
    {
      distances, queue, paths, failure := ExamineNeighbour(adjacency, n, distances, visited, queue, paths, u, du, i);
      if failure.Some? {
        return;
      }
      i := i + 1;
    }
    RowDone(adjacency, n, distances, visited, queue, paths, u, du);
    return distances, queue, paths, None;
  }

  /** Lines 111-144 with the visited test repaired.  When it returns, the
      origin is at 0, every finite entry is the weight of a shortest walk,
      every unreached node is at the sentinel with no walk lighter than it,
      and the vector is relaxed.  It cannot panic on a square 0/1 matrix. */
  method ShortestDistances(adjacency: seq<seq<nat>>, n: nat) returns (r: Result<seq<nat>>)
    ensures n == 0 ==> r == Panicked(NoOrigin)
    ensures r.Ok? ==> |r.value| == n && Bounded(r.value) && r.value[0] == 0
    ensures r.Ok? ==> Relaxed(adjacency, n, r.value)
    ensures r.Ok? ==> forall v | 0 <= v < n && r.value[v] < USIZE_MAX :: Shortest(adjacency, n, v, r.value[v])
    ensures r.Ok? ==> forall v, p | 0 <= v < n && WalkTo(adjacency, n, p, v) :: r.value[v] <= Weight(adjacency, p)
    ensures 1 <= n && IsSquare(adjacency, n) && ZeroOne(adjacency, n) ==> r.Ok?
  {
    if n == 0 {
      return Panicked(NoOrigin);
    }
    var distances: seq<nat> := seq(n, _ => USIZE_MAX)[0 := 0];
    var visited: seq<bool> := seq(n, _ => false);
    var queue := multiset{Node(0, 0)};
    ghost var paths: seq<seq<nat>> := seq(n, _ => [0]);
    InitialState(adjacency, n);
    while queue != multiset{}
      invariant OuterInv(adjacency, n, distances, visited, queue, paths)
      invariant Witnessed(adjacency, n, distances, paths)
      decreases Unvisited(visited), |queue|
    {
      var popped, rest := Pop(queue);
      var node := popped.value;
      var u := node.index;
      if visited[u] {
        SkipVisited(adjacency, n, distances, visited, queue, paths, node);
        queue := rest;
        continue;
      }
      VisitNode(adjacency, n, distances, visited, queue, paths, node);
      VisitingShrinksUnvisited(visited, u);
      queue := rest;
      visited := visited[u := true];
      distances := distances[u := node.distance];
      var failure;
      distances, queue, paths, failure := ScanRow(adjacency, n, distances, visited, queue, paths, u, node.distance);
      if failure.Some? {
        return Panicked(failure.value);
      }
    }
    Converged(adjacency, n, distances, visited, paths);
    return Ok(distances);
  }

  /** The repaired reduction: the largest distance that is not the sentinel,
      i.e. the eccentricity of the origin over the nodes it reaches. */
  function Eccentricity(d: seq<nat>): (r: nat)
    ensures r < USIZE_MAX
    ensures forall i | 0 <= i < |d| && d[i] < USIZE_MAX :: d[i] <= r
    ensures r == 0 || exists i | 0 <= i < |d| :: d[i] == r
  {
    if d == [] then 0
    else
      var rest := Eccentricity(d[1..]);
      if d[0] < USIZE_MAX && d[0] > rest then d[0] else rest
  }

  /** The repaired `longest_path`: the greatest shortest-walk distance from
      the origin to any node it reaches; unreachable nodes do not count. */
  method LongestPath(adjacency: seq<seq<nat>>, n: nat) returns (r: Result<nat>)
    ensures n == 0 ==> r == Panicked(NoOrigin)
    ensures r.Ok? ==> r.value < USIZE_MAX
    ensures r.Ok? ==> exists v | 0 <= v < n :: Shortest(adjacency, n, v, r.value)
    ensures r.Ok? ==> forall v: nat, w: nat | v < n && w < USIZE_MAX && Shortest(adjacency, n, v, w) :: w <= r.value
    ensures 1 <= n && IsSquare(adjacency, n) && ZeroOne(adjacency, n) ==> r.Ok?
  {
    var res := ShortestDistances(adjacency, n);
    match res
    case Panicked(reason) =>
      r := Panicked(reason);
    case Ok(d) =>
      var e := Eccentricity(d);
      forall v: nat, w: nat | v < n && w < USIZE_MAX && Shortest(adjacency, n, v, w)
        ensures w <= e
      {
        var p :| WalkTo(adjacency, n, p, v) && Weight(adjacency, p) == w;
        assert d[v] <= w;
        assert Shortest(adjacency, n, v, d[v]);
        var q :| WalkTo(adjacency, n, q, v) && Weight(adjacency, q) == d[v];
        assert w <= Weight(adjacency, q);
      }
      if e == 0 {
        assert Shortest(adjacency, n, 0, d[0]);
      } else {
        var i :| 0 <= i < |d| && d[i] == e;
        assert Shortest(adjacency, n, i, d[i]);
      }
      r := Ok(e);
  }
}

=== FILE: search_state.dfy ===
/** The loop state of the repaired traversal and the facts each step of
    the loop keeps. */
module SearchState {
  import opened Frontier
  import opened Traversal
  import opened Walks

  /** Number of nodes not yet visited: the first half of the termination measure. */
  function Unvisited(visited: seq<bool>): nat
  {
    if visited == [] then 0 else (if visited[0] then 0 else 1) + Unvisited(visited[1..])
  }

  lemma {:induction false} VisitingShrinksUnvisited(visited: seq<bool>, u: nat)
    requires u < |visited| && !visited[u]
    ensures Unvisited(visited[u := true]) + 1 == Unvisited(visited)
  {
    if u == 0 {
      assert visited[u := true][1..] == visited[1..];
    } else {
      VisitingShrinksUnvisited(visited[1..], u - 1);
      assert visited[u := true][1..] == visited[1..][u - 1 := true];
    }
  }

  /* The loop state of the repaired traversal, split into the facts the
     proof keeps.  `d` is the distance vector, `visited` the separate
     visited vector, `queue` the heap, and `paths` (ghost) a witness walk for
     every finite distance. */

  ghost predicate Shape(n: nat, d: seq<nat>, visited: seq<bool>, paths: seq<seq<nat>>)
  {
    |d| == n && |visited| == n && |paths| == n && n >= 1 && Bounded(d) && d[0] == 0
  }

  /** Every node that has not been visited but already has a finite distance
      has an entry with exactly that distance waiting in the queue. */
  ghost predicate PendingQueued(n: nat, d: seq<nat>, visited: seq<bool>, queue: multiset<Node>)
    requires |d| == n && |visited| == n
  {
    forall x | 0 <= x < n && !visited[x] && d[x] < USIZE_MAX :: Node(d[x], x) in queue
  }

  /** Every visited node other than `skip` has had all its edges relaxed. */
  ghost predicate RelaxedVisited(m: seq<seq<nat>>, n: nat, d: seq<nat>, visited: seq<bool>, skip: int)
    requires |d| == n && |visited| == n
  {
    forall w, v | 0 <= w < n && 0 <= v < n && visited[w] && w != skip && Entry(m, w, v) > 0 ::
      d[v] <= d[w] + Entry(m, w, v)
  }

  /** Every finite distance is the weight of the recorded walk. */
  ghost predicate Witnessed(m: seq<seq<nat>>, n: nat, d: seq<nat>, paths: seq<seq<nat>>)
    requires |d| == n && |paths| == n
  {
    forall v | 0 <= v < n && d[v] < USIZE_MAX :: WalkTo(m, n, paths[v], v) && Weight(m, paths[v]) == d[v]
  }

  /** The invariant of the outer `while let Some(node) = queue.pop()` loop. */
  ghost predicate OuterInv(m: seq<seq<nat>>, n: nat, d: seq<nat>, visited: seq<bool>, queue: multiset<Node>, paths: seq<seq<nat>>)
  {
    && Shape(n, d, visited, paths)
    && Settled(d, queue)
    && (forall u | 0 <= u < n && visited[u] :: d[u] < USIZE_MAX)
    && (forall u, x | 0 <= u < n && visited[u] && x in queue :: d[u] <= x.distance)
    && PendingQueued(n, d, visited, queue)
    && RelaxedVisited(m, n, d, visited, -1)
  }

  /** The invariant of the inner `for i in 0..num_nodes` loop over the row of
      `u`, just visited at distance `du`, with entries below `i` relaxed. */
  ghost predicate InnerInv(m: seq<seq<nat>>, n: nat, d: seq<nat>, visited: seq<bool>, queue: multiset<Node>, paths: seq<seq<nat>>,
                           u: nat, du: nat, i: nat)
  {
    && Shape(n, d, visited, paths)
    && u < n && i <= n && visited[u] && d[u] == du && du < USIZE_MAX
    && Settled(d, queue)
    && (forall x | x in queue :: du <= x.distance)
    && (forall w | 0 <= w < n && visited[w] :: d[w] <= du)
    && PendingQueued(n, d, visited, queue)
    && RelaxedVisited(m, n, d, visited, u)
    && (forall v | 0 <= v < i && Entry(m, u, v) > 0 :: d[v] <= du + Entry(m, u, v))
  }

  lemma InitialState(m: seq<seq<nat>>, n: nat)
    requires n >= 1
    ensures OuterInv(m, n, seq(n, _ => USIZE_MAX)[0 := 0], seq(n, _ => false), multiset{Node(0, 0)}, seq(n, _ => [0]))
    ensures Witnessed(m, n, seq(n, _ => USIZE_MAX)[0 := 0], seq(n, _ => [0]))
  {
  }

  /** Popping an entry for a visited node: dropping it keeps the invariant. */
  lemma SkipVisited(m: seq<seq<nat>>, n: nat, d: seq<nat>, visited: seq<bool>, queue: multiset<Node>, paths: seq<seq<nat>>, node: Node)
    requires OuterInv(m, n, d, visited, queue, paths)
    requires node in queue && node.index < n && visited[node.index]
    ensures OuterInv(m, n, d, visited, queue - multiset{node}, paths)
  {
  }

  /** Popping a least entry for an unvisited node: its distance is already
      the recorded one, and marking it visited starts the row scan. */
  lemma VisitNode(m: seq<seq<nat>>, n: nat, d: seq<nat>, visited: seq<bool>, queue: multiset<Node>, paths: seq<seq<nat>>, node: Node)
    requires OuterInv(m, n, d, visited, queue, paths)
    requires node in queue && forall o | o in queue :: node.distance <= o.distance
    requires node.index < n && !visited[node.index]
    ensures node.distance == d[node.index]
    ensures d[node.index := node.distance] == d
    ensures InnerInv(m, n, d, visited[node.index := true], queue - multiset{node}, paths, node.index, node.distance, 0)
  {
  }

  /** Row entry `i` does not shorten the distance of `i`: nothing changes. */
  lemma KeepNeighbour(m: seq<seq<nat>>, n: nat, d: seq<nat>, visited: seq<bool>, queue: multiset<Node>, paths: seq<seq<nat>>,
                      u: nat, du: nat, i: nat)
    requires InnerInv(m, n, d, visited, queue, paths, u, du, i) && i < n
    requires Entry(m, u, i) > 0 ==> d[i] <= du + Entry(m, u, i)
    ensures InnerInv(m, n, d, visited, queue, paths, u, du, i + 1)
  {
  }

  /** Row entry `i` shortens the distance of `i`: record it, queue it, and
      extend the walk to `u` by the step to `i`. */
  lemma RelaxNeighbour(m: seq<seq<nat>>, n: nat, d: seq<nat>, visited: seq<bool>, queue: multiset<Node>, paths: seq<seq<nat>>,
                       u: nat, du: nat, i: nat, nd: nat)
    requires InnerInv(m, n, d, visited, queue, paths, u, du, i) && i < n
    requires Entry(m, u, i) > 0 && nd == du + Entry(m, u, i) && nd < d[i]
    ensures !visited[i]
    ensures InnerInv(m, n, d[i := nd], visited, queue + multiset{Node(nd, i)}, paths[i := paths[u] + [i]], u, du, i + 1)
  {
    RelaxKeepsPending(n, d, visited, queue, i, nd);
    RelaxKeepsRelaxed(m, n, d, visited, u, i, nd);
    RelaxKeepsQueueBounds(d, queue, du, i, nd);
    RelaxKeepsRow(m, n, d, visited, u, du, i, nd);
  }

  lemma RelaxKeepsQueueBounds(d: seq<nat>, queue: multiset<Node>, du: nat, i: nat, nd: nat)
    requires i < |d| && Settled(d, queue) && du < nd < d[i] <= USIZE_MAX
    requires forall x | x in queue :: du <= x.distance
    ensures Settled(d[i := nd], queue + multiset{Node(nd, i)})
    ensures forall x | x in queue + multiset{Node(nd, i)} :: du <= x.distance
  {
  }

  lemma RelaxKeepsRow(m: seq<seq<nat>>, n: nat, d: seq<nat>, visited: seq<bool>, u: nat, du: nat, i: nat, nd: nat)
    requires |d| == n && |visited| == n && u < n && i < n && u != i && !visited[i]
    requires d[u] == du && Entry(m, u, i) > 0 && nd == du + Entry(m, u, i) && nd < d[i]
    requires Bounded(d) && d[0] == 0
    requires forall w | 0 <= w < n && visited[w] :: d[w] <= du
    requires forall v | 0 <= v < i && Entry(m, u, v) > 0 :: d[v] <= du + Entry(m, u, v)
    ensures Bounded(d[i := nd]) && d[i := nd][0] == 0 && d[i := nd][u] == du
    ensures forall w | 0 <= w < n && visited[w] :: d[i := nd][w] <= du
    ensures forall v | 0 <= v < i + 1 && Entry(m, u, v) > 0 :: d[i := nd][v] <= du + Entry(m, u, v)
  {
  }

  lemma RelaxKeepsWitnessed(m: seq<seq<nat>>, n: nat, d: seq<nat>, paths: seq<seq<nat>>, u: nat, i: nat, nd: nat)
    requires |d| == n && |paths| == n && u < n && i < n && u != i
    requires Witnessed(m, n, d, paths) && d[u] < USIZE_MAX
    requires Entry(m, u, i) > 0 && nd == d[u] + Entry(m, u, i) && nd < d[i]
    ensures Witnessed(m, n, d[i := nd], paths[i := paths[u] + [i]])
  {
  }

  lemma RelaxKeepsPending(n: nat, d: seq<nat>, visited: seq<bool>, queue: multiset<Node>, i: nat, nd: nat)
    requires |d| == n && |visited| == n && i < n && !visited[i]
    requires PendingQueued(n, d, visited, queue)
    ensures PendingQueued(n, d[i := nd], visited, queue + multiset{Node(nd, i)})
  {
  }

  lemma RelaxKeepsRelaxed(m: seq<seq<nat>>, n: nat, d: seq<nat>, visited: seq<bool>, u: nat, i: nat, nd: nat)
    requires |d| == n && |visited| == n && u < n && i < n && !visited[i]
    requires RelaxedVisited(m, n, d, visited, u) && nd < d[i]
    ensures RelaxedVisited(m, n, d[i := nd], visited, u)
  {
  }

  /** The row of `u` is fully scanned: the outer invariant holds again. */
  lemma RowDone(m: seq<seq<nat>>, n: nat, d: seq<nat>, visited: seq<bool>, queue: multiset<Node>, paths: seq<seq<nat>>, u: nat, du: nat)
    requires InnerInv(m, n, d, visited, queue, paths, u, du, n)
    ensures OuterInv(m, n, d, visited, queue, paths)
  {
  }

  /** With the queue empty, the outer invariant gives the contract of
      `ShortestDistances`. */
  lemma Converged(m: seq<seq<nat>>, n: nat, d: seq<nat>, visited: seq<bool>, paths: seq<seq<nat>>)
    requires OuterInv(m, n, d, visited, multiset{}, paths)
    requires Witnessed(m, n, d, paths)
    ensures Relaxed(m, n, d)
    ensures forall v | 0 <= v < n && d[v] < USIZE_MAX :: Shortest(m, n, v, d[v])
    ensures forall v, p | 0 <= v < n && WalkTo(m, n, p, v) :: d[v] <= Weight(m, p)
  {
    forall u | 0 <= u < n && d[u] < USIZE_MAX
      ensures visited[u]
    {
    }
    assert Relaxed(m, n, d);
    forall v, p | 0 <= v < n && WalkTo(m, n, p, v)
      ensures d[v] <= Weight(m, p)
    {
      DistanceIsLowerBound(m, n, d, p, v);
    }
    forall v | 0 <= v < n && d[v] < USIZE_MAX
      ensures Shortest(m, n, v, d[v])
    {
      assert WalkTo(m, n, paths[v], v);
    }
  }
}

=== FILE: traversal.dfy ===
/** `Graph::longest_path` exactly as written: a lazy-deletion Dijkstra whose
    "already visited" test is `distances[i] != usize::MAX`, followed by the
    maximum over the distance vector. */
module Traversal {
  import opened Panics
  import opened Frontier
  import opened Graphs

  /** `std::usize::MAX` on a 64-bit target: the "not reached" sentinel. */
  const USIZE_MAX: nat := 0xFFFF_FFFF_FFFF_FFFF

  /** Every entry fits in a `usize`. */
  predicate Bounded(d: seq<nat>)
  {
    forall i | 0 <= i < |d| :: d[i] <= USIZE_MAX
  }

  /** Every queued entry names a node and carries a distance below the sentinel. */
  predicate ValidQueue(n: nat, q: multiset<Node>)
  {
    forall x | x in q :: x.index < n && x.distance < USIZE_MAX
  }

  /** Every queued entry is for a node whose recorded distance is already at
      most the entry's (and so is not the sentinel): the line-125 test will
      skip every one of them. */
  predicate Settled(d: seq<nat>, q: multiset<Node>)
  {
    forall x | x in q :: x.index < |d| && d[x.index] <= x.distance < USIZE_MAX
  }

  /** Sum of the distance vector: the first half of the termination measure. */
  function Sum(s: seq<nat>): nat
  {
    if s == [] then 0 else s[0] + Sum(s[1..])
  }

  /** Overwriting one entry changes the sum by exactly the difference. */
  lemma {:induction false} SumUpdate(s: seq<nat>, i: nat, v: nat)
    requires i < |s|
    ensures Sum(s[i := v]) + s[i] == Sum(s) + v
  {
    if i == 0 {
      assert s[i := v][1..] == s[1..];
    } else {
      SumUpdate(s[1..], i - 1, v);
      assert s[i := v][1..] == s[1..][i - 1 := v];
    }
  }

  /** The `while let Some(node) = queue.pop()` loop of lines 122-144, run from
      any distance vector whose entries fit a `usize` and any queue whose
      entries name nodes below `n` with distances below the sentinel.  It
      always terminates; it never raises a distance; it can only panic by
      reading outside the matrix at a position below `n` by `n`, or by
      overflowing `distance + weight`; and when every queued entry is already
      settled it pops them all without touching the vector. */
  method Traverse(adjacency: seq<seq<nat>>, n: nat, distances0: seq<nat>, queue0: multiset<Node>)
    returns (r: Result<seq<nat>>)
    requires |distances0| == n && Bounded(distances0)
    requires ValidQueue(n, queue0)
    ensures r.Ok? ==> |r.value| == n && Bounded(r.value)
    ensures r.Ok? ==> forall i | 0 <= i < n :: r.value[i] <= distances0[i]
    ensures r.Panicked? && r.reason.MatrixIndexOutOfBounds? ==>
              && !(r.reason.row < |adjacency| && r.reason.col < |adjacency[r.reason.row]|)
              && r.reason.row < n && r.reason.col < n
    ensures r.Panicked? && r.reason.AddOverflow? ==>
              && r.reason.node < |adjacency| && r.reason.neighbour < |adjacency[r.reason.node]|
              && adjacency[r.reason.node][r.reason.neighbour] >= 2
    ensures r.Panicked? ==> r.reason.MatrixIndexOutOfBounds? || r.reason.AddOverflow?
    ensures Settled(distances0, queue0) ==> r == Ok(distances0)
  {
    var distances: seq<nat> := distances0;
    var queue := queue0;
    while queue != multiset{}
      invariant |distances| == n && Bounded(distances)
      invariant forall i | 0 <= i < n :: distances[i] <= distances0[i]
      invariant ValidQueue(n, queue)
      invariant Settled(distances0, queue0) ==> distances == distances0 && Settled(distances, queue)
      decreases Sum(distances), |queue|
    {
      var popped, rest := Pop(queue);
      var node := popped.value;
      queue := rest;
      if distances[node.index] != USIZE_MAX {
        continue;
      }
      assert !Settled(distances0, queue0);
      ghost var before := Sum(distances);
      SumUpdate(distances, node.index, node.distance);
      distances := distances[node.index := node.distance];
      var i := 0;
      while i < n
        invariant 0 <= i <= n
        invariant |distances| == n && Bounded(distances)
        invariant forall j | 0 <= j < n :: distances[j] <= distances0[j]
        invariant ValidQueue(n, queue)
        invariant !Settled(distances0, queue0)
        invariant Sum(distances) < before
      {
        if node.index >= |adjacency| || i >= |adjacency[node.index]| {
          return Panicked(MatrixIndexOutOfBounds(node.index, i));
        }
        var weight := adjacency[node.index][i];
        if weight != 0 {
          if node.distance + weight > USIZE_MAX {
            return Panicked(AddOverflow(node.index, i));
          }
          var newDistance := node.distance + weight;
          if newDistance < distances[i] {
            SumUpdate(distances, i, newDistance);
            distances := distances[i := newDistance];
            queue := queue + multiset{Node(newDistance, i)};
          }
        }
        i := i + 1;
      }
    }
    return Ok(distances);
  }

  /** Lines 111-144: the sentinel vector with `distances[0] = 0` already set
      (a panic when there are no nodes), and the queue seeded with `(0, 0)`.
      The seed is skipped by the line-125 test, so the vector comes back
      unchanged: the origin at 0 and every other node at the sentinel,
      whatever the matrix holds. */
  method ShortestDistancesAsWritten(adjacency: seq<seq<nat>>, n: nat) returns (r: Result<seq<nat>>)
    ensures r.Panicked? <==> n == 0
    ensures r.Panicked? ==> r.reason == NoOrigin
    ensures r.Ok? ==> |r.value| == n && r.value[0] == 0
    ensures r.Ok? ==> forall i | 1 <= i < n :: r.value[i] == USIZE_MAX
  {
    if n == 0 {
      return Panicked(NoOrigin);
    }
    var initial: seq<nat> := seq(n, _ => USIZE_MAX)[0 := 0];
    r := Traverse(adjacency, n, initial, multiset{Node(0, 0)});
  }

  /** `distances.iter().max()`: `None` for an empty vector, otherwise an
      entry that no other entry exceeds. */
  function MaxEntry(s: seq<nat>): (r: Option<nat>)
    ensures r.None? <==> s == []
    ensures r.Some? ==> exists i | 0 <= i < |s| :: s[i] == r.value
    ensures r.Some? ==> forall i | 0 <= i < |s| :: s[i] <= r.value
  {
    if s == [] then None
    else
      var rest := MaxEntry(s[1..]);
      if rest.None? || s[0] >= rest.value then Some(s[0]) else rest
  }

  /** `Graph::longest_path`: panics on a graph with no nodes (line 113
      indexes `distances[0]`); otherwise returns 0 for a single node and
      `usize::MAX` for more, whatever edges the graph has. */
  method LongestPath(g: Graph) returns (r: Result<nat>)
    ensures g.numNodes == 0 ==> r == Panicked(NoOrigin)
    ensures g.numNodes == 1 ==> r == Ok(0)
    ensures g.numNodes > 1 ==> r == Ok(USIZE_MAX)
  {
    var distances := ShortestDistancesAsWritten(g.adjacencyMatrix, g.numNodes);
    if distances.Panicked? {
      return Panicked(distances.reason);
    }
    r := Ok(MaxEntry(distances.value).value);
    if g.numNodes > 1 {
      assert distances.value[1] == USIZE_MAX;
    }
  }
}

=== FILE: walks.dfy ===
/** Walks from the origin of the traversal, their weights and shortest
    walk distances: the reference the repaired traversal is proved against. */
module Walks {
  import opened Traversal

  function Entry(m: seq<seq<nat>>, u: int, v: int): nat
  {
    if 0 <= u < |m| && 0 <= v < |m[u]| then m[u][v] else 0
  }

  /** `p` is a walk from the origin, node 0, to `v` through nodes below `n`,
      each step along a positive entry. */
  ghost predicate WalkTo(m: seq<seq<nat>>, n: nat, p: seq<nat>, v: nat)
  {
    && |p| >= 1 && p[0] == 0 && p[|p| - 1] == v
    && (forall k | 0 <= k < |p| :: p[k] < n)
    && (forall k | 0 <= k < |p| - 1 :: Entry(m, p[k], p[k + 1]) > 0)
  }

  /** Total weight of the steps of `p`. */
  ghost function Weight(m: seq<seq<nat>>, p: seq<nat>): nat
    decreases |p|
  {
    if |p| < 2 then 0 else Weight(m, p[..|p| - 1]) + Entry(m, p[|p| - 2], p[|p| - 1])
  }

  /** `w` is the weight of a shortest walk from the origin to `v`. */
  ghost predicate Shortest(m: seq<seq<nat>>, n: nat, v: nat, w: nat)
  {
    && (exists p :: WalkTo(m, n, p, v) && Weight(m, p) == w)
    && (forall p :: WalkTo(m, n, p, v) ==> w <= Weight(m, p))
  }

  /** No edge out of a reached node can still shorten its target's distance:
      the state Dijkstra's loop converges to. */
  predicate Relaxed(m: seq<seq<nat>>, n: nat, d: seq<nat>)
    requires |d| == n
  {
    forall u, v | 0 <= u < n && 0 <= v < n && d[u] < USIZE_MAX && Entry(m, u, v) > 0 ::
      d[v] <= d[u] + Entry(m, u, v)
  }

  /** Extending a walk to `u` by one step `u -> v` gives a walk to `v`, heavier
      by that step's weight. */
  lemma WalkExtend(m: seq<seq<nat>>, n: nat, p: seq<nat>, u: nat, v: nat)
    requires WalkTo(m, n, p, u) && v < n && Entry(m, u, v) > 0
    ensures WalkTo(m, n, p + [v], v)
    ensures Weight(m, p + [v]) == Weight(m, p) + Entry(m, u, v)
  {
  }

  /** Reaching a node other than the origin takes at least one step, and
      that step has positive weight. */
  lemma LeavingOriginCosts(m: seq<seq<nat>>, n: nat, p: seq<nat>, v: nat)
    requires WalkTo(m, n, p, v) && v != 0
    ensures |p| >= 2 && Weight(m, p) >= Entry(m, p[|p| - 2], v) > 0
  {
  }

  /** A node other than the origin with no positive entry in its column
      cannot be reached at all. */
  lemma NoWalkWithoutIncomingEdge(m: seq<seq<nat>>, n: nat, p: seq<nat>, v: nat)
    requires v != 0 && forall x | 0 <= x < n :: Entry(m, x, v) == 0
    ensures !WalkTo(m, n, p, v)
  {
    if WalkTo(m, n, p, v) {
      LeavingOriginCosts(m, n, p, v);
    }
  }

  /** In a relaxed vector with the origin at 0, no walk to `v` is lighter
      than the recorded distance of `v`. */
  lemma {:induction false} DistanceIsLowerBound(m: seq<seq<nat>>, n: nat, d: seq<nat>, p: seq<nat>, v: nat)
    requires |d| == n && Bounded(d) && n >= 1 && d[0] == 0
    requires Relaxed(m, n, d)
    requires WalkTo(m, n, p, v)
    ensures d[v] <= Weight(m, p)
    decreases |p|
  {
    if |p| >= 2 {
      var prefix := p[..|p| - 1];
      var u := p[|p| - 2];
      assert WalkTo(m, n, prefix, u) by {
        forall k | 0 <= k < |prefix| - 1
          ensures Entry(m, prefix[k], prefix[k + 1]) > 0
        {
          assert prefix[k] == p[k] && prefix[k + 1] == p[k + 1];
        }
      }
      DistanceIsLowerBound(m, n, d, prefix, u);
      assert Entry(m, u, v) > 0 by {
        assert p[|p| - 2 + 1] == v;
      }
    }
  }
}
